=== FILE: README.md ===
# VNC management plane: connection registry, session guards and file-manager helpers

This project models two parts of a VNC management system.

The first is the backend's connection registry (`backend/server.py`). Its records are:

- connections, each with a status in {active, inactive, installing, error} and an optional IP address;
- single-use installation keys, each bound to one connection;
- an append-only activity log;
- the process-wide index of live WebSocket sessions (`websocket_connections`).

The model covers the handlers that change or guard these records:

- creating a connection together with its key;
- updating a connection's status;
- registering a machine with its key;
- deleting a connection, which also deletes its keys;
- the "found / active" guard in front of the session-start, file and screenshot endpoints;
- the WebSocket session, which echoes each message back.

The second part is the pure path and selection helpers of the file-manager panel (`frontend/src/components/FileManager.js`).

Layout:

- `strings.dfy` (module `Strings`) gives JavaScript's `split`/`join` with a one-character separator, `lastIndexOf`/`rfind`, Python's `rstrip` and `str()` of a natural number. It also proves the two split/join round trips.
- `filemanager.dfy` (module `FileManager`) holds `navigateUp`, `handleFileSelect`, the select-all checkbox, `handleDoubleClick` and `getFileIcon`, as pure functions with lemmas.
- `registry.dfy` (module `Registry`) holds the store as a value, `Store(connections, keys, logs, sessions)`. Every handler is a function from the store and request to the new store and the response, taken as one atomic step. The invariant `Valid` says connections and keys are paired one to one. Every handler preserves it. The lemmas relate several steps: a key is used once, a deleted connection's key is rejected, and overlapping sessions lose their index entry.
- `server.dfy` (module `Server`) holds the class `VncServer`. Its four fields are the four parts of the store. Each handler is a method that checks, then assigns the fields step by step, and its postcondition equals the new store and response to the `Registry` function for the same request. `VncWebsocket` keeps the source's receive loop, with invariants saying the session stays indexed and every message gets its reply in order.

Clock readings, fresh ids and fresh key texts are parameters (`now`, `id`, `key`). The incoming WebSocket messages are a sequence that ends where the client disconnects.

The system's design description and its code disagree in places. The model follows the code:

- The design describes a background liveness prober and a bidirectional TCP relay. `server.py` has neither: nothing probes endpoints, and `vnc_websocket` only echoes text (`server.py:571-582`).
- The design refuses sessions for endpoints without an address and has an "unreachable" close reason. The code checks only the status, and it has two close codes: 4004 for an unknown id and 4003 for an inactive one.
- The design says the session index never retains a stale entry. The code does keep that, but a second session on the same id overwrites the entry, and the first session to end removes it while the other still runs (`OverlappingSessions`).
- The design leaves deletion to an outside collaborator. The code deletes the connection and its keys itself.
- `register_machine` stores the supplied status without validating it, defaulting to "active".
- `backend_test.py:167-176` registers an already-used key a second time and expects 200. `server.py:325-326` answers 400 "Installation key already used", which `KeySingleUse` proves.

## Model

| member | source | states |
|---|---|---|
| Strings.Split | frontend/src/components/FileManager.js:171 | JavaScript `split('/')`: one more segment than separators, empty segments kept, no segment holds the separator |
| Strings.Join | frontend/src/components/FileManager.js:171 | JavaScript `join('/')`: separator-free segments are glued with exactly one separator between neighbours, and the first segment starts the text |
| Strings.JoinSplit | frontend/src/components/FileManager.js:171 | joining the segments of a split gives back the original text |
| Strings.SplitJoin | frontend/src/components/FileManager.js:171 | splitting a join of at least one separator-free segment gives back the segments |
| Strings.DropLastSegment | frontend/src/components/FileManager.js:171 | `split(...).slice(0, -1).join(...)` is the text before the last separator, or empty when there is none |
| Strings.LastSegment | frontend/src/components/FileManager.js:145 | `split('.').pop()` is the text after the last '.', or the whole name when it has none |
| Strings.AfterLast | backend/server.py:519 | `os.path.basename`: the text after the last '/' holds no '/', and the path is what comes before it, then '/', then it |
| Strings.RStrip | backend/server.py:505 | `rstrip('/')` gives a prefix of the input that does not end in '/', and only '/' characters were removed |
| Strings.Decimal | backend/server.py:498 | `str(len(content))`: at least one decimal digit, the digits denote exactly the number, and a leading zero occurs only in "0" itself |
| FileManager.NavigateUp | frontend/src/components/FileManager.js:169-174 | at "/" the path is unchanged; the result is never empty; a changed path is "/" or a proper prefix of the old one |
| FileManager.NavigateUpCutsAtLastSlash | frontend/src/components/FileManager.js:171-172 | away from "/", the parent is the path cut at its last '/'; it is "/" when that '/' is the first character or there is none (so "/Documents" goes to "/") |
| FileManager.NavigateUpShortens | frontend/src/components/FileManager.js:171-172 | away from "/", the parent is "/" or strictly shorter than the path |
| FileManager.Without | frontend/src/components/FileManager.js:49 | `filter(name => name !== n)` holds exactly the other names and never the removed one |
| FileManager.ToggleSelection | frontend/src/components/FileManager.js:47-53 | a selected name is removed with all its occurrences (`Without`); an unselected name is appended once at the end; so the name is selected afterwards exactly when it was not before, and every other name keeps its membership |
| FileManager.ToggleKeepsOthersInOrder | frontend/src/components/FileManager.js:47-53 | leaving out the toggled name, the selection is the same sequence before and after, so the other names keep their relative order |
| FileManager.ToggleTwiceRestores | frontend/src/components/FileManager.js:47-53 | toggling a name twice, starting without it, restores the original selection |
| FileManager.FileNames | frontend/src/components/FileManager.js:266 | a name is listed exactly when some entry of type 'file' has it |
| FileManager.FileNamesAppend | frontend/src/components/FileManager.js:266 | the names follow the listing's order: the names of a concatenated listing are the concatenation of the names |
| FileManager.SelectAll | frontend/src/components/FileManager.js:264-269 | checking the header selects the names of the file entries; unchecking selects nothing |
| FileManager.HeaderChecked | frontend/src/components/FileManager.js:263 | the header rule as written: it shows checked right after select-all, and over an empty selection it shows checked only when the listing has no file |
| FileManager.HeaderCheckedCounterexample | frontend/src/components/FileManager.js:263 | as written, the header shows checked for selection ["a.txt"] over a listing whose only file is "b.txt" |
| FileManager.SelectAllShowsInHeader | frontend/src/components/FileManager.js:263-269 | with the corrected header rule, checking shows every file selected; unchecking shows that only when the listing has no file |
| FileManager.AllFilesSelectedMeansSelectAllIncluded | frontend/src/components/FileManager.js:263-266 | the corrected header is checked exactly when the selection includes everything select-all would select |
| FileManager.DoubleClick | frontend/src/components/FileManager.js:55-62 | a directory becomes the current path and the selection is cleared; a file leaves path and selection unchanged |
| FileManager.Lower | frontend/src/components/FileManager.js:145 | `toLowerCase` on ASCII: same length, no upper-case letter left, each upper-case letter replaced by its lower-case partner, all other characters unchanged |
| FileManager.Extension | frontend/src/components/FileManager.js:145 | the extension is the lower-cased text after the name's last '.', or the whole name lower-cased when it has none |
| FileManager.IconFor | frontend/src/components/FileManager.js:146-166 | an extension the `switch` does not list gets the default icon |
| FileManager.FileIcon | frontend/src/components/FileManager.js:142-166 | the folder icon is given to directories and only to them |
| FileManager.FileIconByLastDot | frontend/src/components/FileManager.js:145-166 | a file's icon is the `switch` applied to the lower-cased text after its last '.' |
| FileManager.SameExtensionSameIcon | frontend/src/components/FileManager.js:145-166 | two files whose names agree after the last '.', ignoring case, get the same icon |
| FileManager.UnlistedExtensionGetsDefault | frontend/src/components/FileManager.js:165 | a file whose lower-cased extension is unlisted gets the default icon |
| Registry.Show | backend/server.py:347 | an optional value printed in an f-string: a present value prints as itself, an absent one as "None" |
| Registry.KeyMissing | backend/server.py:317 | `not installation_key`: the key counts as present exactly when it is supplied and non-empty |
| Registry.Log | backend/server.py:191-199 | `log_activity` appends exactly one entry and changes nothing else |
| Registry.KeysOfIsOwnKey | backend/server.py:227-232 | in a valid store the only key bound to a connection is the one it stores |
| Registry.CreateConnection | backend/server.py:213-234 | adds one connection (status "inactive", no IP, no last-seen, the requested name and location, country and city defaulting to "Russia" and "Moscow", created now) and one unused key bound to it with the same key text; the log and session index are untouched; the invariant is kept |
| Registry.UpdateConnectionStatus | backend/server.py:250-272 | a status outside the four valid ones gives 400 and changes nothing, even for an unknown id; an unknown id gives 404 and logs nothing; otherwise it sets status and last-seen and appends exactly one "status_update" entry |
| Registry.DeleteConnection | backend/server.py:274-286 | an unknown id gives 404 and changes nothing; otherwise the connection and exactly the keys bound to it go, other keys stay as they were, and one "connection_deleted" entry is appended |
| Registry.DeleteRemovesOwnKey | backend/server.py:281-282 | after a deletion no remaining key is bound to the deleted id, its own key included |
| Registry.RegisterMachine | backend/server.py:309-349 | a missing key (400), an unknown key (404) and a used key (400 "Installation key already used") change nothing; otherwise the bound connection gets the IP and the supplied status ("active" by default), the key is marked used, one "machine_registered" entry naming the machine and IP is appended under the bound connection's id, and the invariant is kept |
| Registry.KeySingleUse | backend/server.py:325-345 | after a successful registration, registering again with the same key fails with "already used" and leaves the store, and so the IP, unchanged |
| Registry.CreatedKeyRegisters | backend/server.py:321-345 | the key of a freshly created connection registers that very connection and sets its IP |
| Registry.DeletedKeyRejected | backend/server.py:281-282 | once a connection is deleted, registering with its key gives 404 and changes nothing |
| Registry.ActiveConnection | backend/server.py:355-360 | the shared guard: 404 for an unknown id, 400 for a status other than "active", otherwise the stored connection |
| Registry.StartVncSession | backend/server.py:352-371 | fails exactly as the guard does and changes nothing then; otherwise appends one "vnc_connect" entry stamped now, naming the stored IP, and returns the stored IP, port, password and the websocket URL carrying the id |
| Registry.ListFiles | backend/server.py:407-462 | fails exactly as the guard does, changing nothing; otherwise appends one "file_list" entry stamped now, naming the path, and answers with the requested path |
| Registry.RemotePath | backend/server.py:505 | the reported remote path ends with "/" + filename, its directory part is the requested path with only trailing '/' removed, and there is no doubled '/' at the join |
| Registry.UploadFile | backend/server.py:464-506 | fails exactly as the guard does, changing nothing; otherwise appends one "file_upload" entry stamped now, giving the name and the decimal byte count, and reports the name, byte size and joined remote path |
| Registry.DownloadFile | backend/server.py:508-539 | fails exactly as the guard does, changing nothing; otherwise appends one "file_download" entry stamped now, giving the base name and the decimal byte count, and answers with the base name, which holds no '/' |
| Registry.VncScreenshot | backend/server.py:595-631 | fails exactly as the guard does, changing nothing; otherwise appends one "vnc_screenshot" entry stamped now and shows the connection's name and IP |
| Registry.OpenSession | backend/server.py:555-568 | close code 4004 for an unknown id and 4003 for an inactive one, with the index and log untouched; otherwise the socket is indexed under the id and one "vnc_websocket_connect" entry is appended |
| Registry.CloseSession | backend/server.py:589-592 | after a session the id is absent from the index, all other entries stay, and one "vnc_websocket_disconnect" entry is appended |
| Registry.Reply | backend/server.py:582 | each reply is the 14 characters "VNC_RESPONSE: " followed by the received message, unchanged |
| Registry.SessionLifecycle | backend/server.py:565-591 | an admitted session's id is indexed while it runs and absent once it has ended |
| Registry.OverlappingSessions | backend/server.py:565-591 | a second session on the same id overwrites the entry, and ending either session leaves the id unindexed |
| Server.VncServer.LogActivity | backend/server.py:191-199 | appends the entry to the log field, nothing else changes |
| Server.VncServer.CreateConnection | backend/server.py:213-234 | the fields become the store `Registry.CreateConnection` gives, and the invariant holds |
| Server.VncServer.UpdateConnectionStatus | backend/server.py:250-272 | fields and response as `Registry.UpdateConnectionStatus` gives; invariant kept |
| Server.VncServer.DeleteConnection | backend/server.py:274-286 | fields and response as `Registry.DeleteConnection` gives; invariant kept |
| Server.VncServer.RegisterMachine | backend/server.py:309-349 | fields and response as `Registry.RegisterMachine` gives; invariant kept |
| Server.VncServer.FindActive | backend/server.py:355-360 | the lookup answers as the shared guard `Registry.ActiveConnection` |
| Server.VncServer.StartVncSession | backend/server.py:352-371 | fields and response as `Registry.StartVncSession` gives; invariant kept |
| Server.VncServer.ListFiles | backend/server.py:407-462 | fields and response as `Registry.ListFiles` gives; invariant kept |
| Server.VncServer.UploadFile | backend/server.py:464-506 | fields and response as `Registry.UploadFile` gives; invariant kept |
| Server.VncServer.DownloadFile | backend/server.py:508-539 | fields and response as `Registry.DownloadFile` gives; invariant kept |
| Server.VncServer.VncScreenshot | backend/server.py:595-631 | fields and response as `Registry.VncScreenshot` gives; invariant kept |
| Server.VncServer.VncWebsocket | backend/server.py:550-592 | a refused session returns its close code and changes nothing; an admitted one answers message i with `Reply(message i)` for every i, in order, and leaves the store as opening then closing the session gives |

## Left out

- MongoDB, FastAPI routing, CORS, logging configuration and the uvicorn entry point are left out. The store is an in-memory value, and each handler runs as one atomic step.
- The interleaving of concurrent requests is not modelled. That includes the non-atomic check-then-set in `register_machine`, where two concurrent registrations could both pass the "used" check.
- Registry.CreateConnection: it requires the new id and key text to be absent from the store. This stands in for the uniqueness of `uuid4` and of `generate_installation_key`; collisions are not modelled.
- `generate_installation_key` (SHA-256 of a UUID) and the MD5 checksums of upload and download are foreign hashing calls. Keys are opaque parameters and checksums are not modelled.
- `generate_powershell_script` is a text template; the model does not show that the script embeds the key.
- The `generate_installer` handler (`server.py:289-307`) is left out. It answers 404 for an unknown id. Otherwise it appends one "installer_generated" log entry and streams the script. Its log entry and 404 follow the same pattern as the modelled handlers, and it changes nothing else. The SVG body of the screenshot is left out for the same reason; only the name and IP it shows are modelled.
- The `file_transfers` collection is not one of the four store parts; its records carry a temporary path and a checksum. The file write to `/tmp` in `upload_file`, the fixed demonstration listing of `list_files` and `file_manager_websocket` are I/O or demonstration stubs.
- Registry.DownloadFile: the byte count in the log text is a parameter. The generated content embeds the clock's text, and its UTF-8 length is not modelled.
- Log entry ids and the key records' database ids are not modelled (they come from `uuid4`). Timestamps are opaque parameters.
- `register_machine` treats a JSON `null` status like an absent one, which gives "active"; the source would store `None`. A non-string key or status value is not modelled.
- The read-only endpoints (`root`, `health_check`, `get_connections`, `get_connection`, the two log queries, `get_statistics`, `get_file_transfers`, `get_system_info`) are left out. They change nothing, and none of them appears in any property above.
- The liveness prober and the TCP relay are left out because `server.py` has neither.
- Registry.ListFiles, Registry.UploadFile: the `"/"` defaults of `path` and `remote_path` (`server.py:408`, `server.py:465`) are not modelled. The caller always supplies both as explicit parameters.
- FileManager.Lower, FileManager.Extension: `toLowerCase` is modelled on ASCII letters only, so for example "À" stays "À". The icon choice is still exact. The only non-ASCII character that lowers to an ASCII letter is the Kelvin sign, which gives `k`, and no listed extension contains `k`.
- `formatFileSize` and the upload progress use floating point. `uploadFiles`, `downloadFile`, the React state setters, `App.js` and `VncViewer.js` are UI and network I/O.
- `navigateUp` does not clear the selection. `NavigateUp` maps the path only; like the source, it leaves the selection alone.

## Findings

| source | as written | input that shows it | evidently intended | confidence | as-written member | corrected member |
|---|---|---|---|---|---|---|
| frontend/src/components/FileManager.js:263 | the header checkbox is checked when the selection has as many names as the listing has file entries | selection ["a.txt"], kept after `navigateUp`, over a listing whose only file is "b.txt": the header shows checked although "b.txt" is not selected | checked when every file entry of the listing is selected | medium, not executed | FileManager.HeaderChecked, FileManager.HeaderCheckedCounterexample | FileManager.AllFilesSelected, FileManager.SelectAllShowsInHeader |

=== FILE: filemanager.dfy ===
/**
  The path and selection helpers of the file-manager panel
  (frontend/src/components/FileManager.js). Each helper computes the next
  value of a piece of React state (the current path or the selected names)
  from the current one; the state setters themselves are not modelled.
 */
module FileManager {
  import opened Strings

  /** One entry of a directory listing as the backend reports it;
      `kind` is the listing's `type` field ("file" or "directory"). */
  datatype FileEntry = FileEntry(name: string, kind: string, size: nat, modified: string, path: string)

  /** The part of the panel's state the helpers change. */
  datatype View = View(currentPath: string, selected: seq<string>)

  const Root: string := "/"

  // ---------------------------------------------------------------- navigateUp

  /** `navigateUp`: at the root nothing changes; otherwise the last
      '/'-separated segment is dropped, and an empty remainder becomes "/". */
  function NavigateUp(path: string): (r: string)
    ensures path == Root ==> r == path
    ensures r != []
    ensures r != path ==> r == Root || r < path
  {
    if path == Root then path
    else
      var parts := Split(path, '/');
      var parent := Join(parts[..|parts| - 1], '/');
      DropLastSegment(path, '/');
      if parent == [] then Root else parent
  }

  /** Away from the root, `navigateUp` cuts the path at its last '/',
      landing on "/" when that '/' is the first character or there is none. */
  lemma NavigateUpCutsAtLastSlash(path: string)
    requires path != Root
    ensures var i := LastIndex(path, '/');
      NavigateUp(path) == if i <= 0 then Root else path[..i]
  {
    DropLastSegment(path, '/');
  }

  /** Away from the root, the parent is "/" or strictly shorter than the path. */
  lemma NavigateUpShortens(path: string)
    requires path != Root
    ensures NavigateUp(path) == Root || |NavigateUp(path)| < |path|
  {
    DropLastSegment(path, '/');
  }

  // ---------------------------------------------------------- handleFileSelect

  /** `selected.filter(n => n !== name)`. */
  function Without(selected: seq<string>, name: string): (r: seq<string>)
    ensures name !in r
    ensures forall x :: x in r <==> x in selected && x != name
    ensures |r| <= |selected|
  {
    if selected == [] then []
    else (if selected[0] == name then [] else [selected[0]]) + Without(selected[1..], name)
  }

  /** `handleFileSelect`: remove every occurrence of a selected name,
      otherwise append the name at the end. */
  function ToggleSelection(selected: seq<string>, name: string): (r: seq<string>)
    ensures name in r <==> name !in selected
    ensures forall x :: x != name ==> (x in r <==> x in selected)
    ensures name !in selected ==> r == selected + [name]
    ensures name in selected ==> r == Without(selected, name)
  {
    if name in selected then Without(selected, name) else selected + [name]
  }

  lemma {:induction false} WithoutAppend(a: seq<string>, b: seq<string>, name: string)
    ensures Without(a + b, name) == Without(a, name) + Without(b, name)
    decreases |a|
  {
    if a != [] {
      assert (a + b)[1..] == a[1..] + b;
      WithoutAppend(a[1..], b, name);
    } else {
      assert a + b == b;
    }
  }

  lemma {:induction false} WithoutAbsent(selected: seq<string>, name: string)
    requires name !in selected
    ensures Without(selected, name) == selected
    decreases |selected|
  {
    if selected != [] {
      WithoutAbsent(selected[1..], name);
    }
  }

  lemma WithoutTwice(selected: seq<string>, name: string)
    ensures Without(Without(selected, name), name) == Without(selected, name)
  {
    WithoutAbsent(Without(selected, name), name);
  }

  /** Toggling keeps the other selected names in their relative order. */
  lemma ToggleKeepsOthersInOrder(selected: seq<string>, name: string)
    ensures Without(ToggleSelection(selected, name), name) == Without(selected, name)
  {
    if name in selected {
      WithoutTwice(selected, name);
    } else {
      WithoutAppend(selected, [name], name);
      WithoutAbsent(selected, name);
    }
  }

  /** Selecting and then deselecting a name restores the selection. */
  lemma ToggleTwiceRestores(selected: seq<string>, name: string)
    requires name !in selected
    ensures ToggleSelection(ToggleSelection(selected, name), name) == selected
  {
    WithoutAppend(selected, [name], name);
    WithoutAbsent(selected, name);
  }

  // ------------------------------------------------------------ select-all box

  /** `files.filter(f => f.type === 'file').map(f => f.name)`. */
  function FileNames(files: seq<FileEntry>): (r: seq<string>)
    ensures |r| <= |files|
    ensures forall x :: x in r <==> exists f :: f in files && f.kind == "file" && f.name == x
  {
    if files == [] then []
    else
      var rest := FileNames(files[1..]);
      assert forall f :: f in files <==> f == files[0] || f in files[1..];
      (if files[0].kind == "file" then [files[0].name] else []) + rest
  }

  /** Names are listed in the order of the listing. */
  lemma {:induction false} FileNamesAppend(a: seq<FileEntry>, b: seq<FileEntry>)
    ensures FileNames(a + b) == FileNames(a) + FileNames(b)
    decreases |a|
  {
    if a != [] {
      assert (a + b)[1..] == a[1..] + b;
      FileNamesAppend(a[1..], b);
    } else {
      assert a + b == b;
    }
  }

  /** The header checkbox's `onChange`: checking selects exactly the names of
      the file entries, unchecking clears the selection. */
  function SelectAll(files: seq<FileEntry>, checked: bool): (r: seq<string>)
    ensures checked ==> r == FileNames(files)
    ensures !checked ==> r == []
  {
    if checked then FileNames(files) else []
  }

  /** A listing has no file names exactly when it has no file entries. */
  lemma FileNamesEmpty(files: seq<FileEntry>)
    ensures FileNames(files) == [] <==> forall f :: f in files ==> f.kind != "file"
  {
    if FileNames(files) != [] {
      assert FileNames(files)[0] in FileNames(files);
    }
  }

  /** The header checkbox's `checked` value as written: as many names
      selected as there are file entries. */
  function HeaderChecked(selected: seq<string>, files: seq<FileEntry>): (checked: bool)
    ensures selected == FileNames(files) ==> checked
    ensures selected == [] ==> (checked <==> forall f :: f in files ==> f.kind != "file")
  {
    FileNamesEmpty(files);
    |selected| == |FileNames(files)|
  }

  /** As written, the header can show "all selected" while no file of the
      listing is selected: the selection survives `navigateUp` and refreshes,
      and only its length is compared. */
  lemma HeaderCheckedCounterexample()
    ensures var files := [FileEntry("b.txt", "file", 0, "", "/b.txt")];
      HeaderChecked(["a.txt"], files) && "b.txt" !in ["a.txt"]
  {
    var files := [FileEntry("b.txt", "file", 0, "", "/b.txt")];
    assert FileNames(files) == ["b.txt"];
  }

  /** The header's evident intent: every file entry of the listing is selected. */
  predicate AllFilesSelected(selected: seq<string>, files: seq<FileEntry>)
  {
    forall f :: f in files && f.kind == "file" ==> f.name in selected
  }

  /** Checking the box shows it checked; unchecking shows it unchecked
      unless the listing holds no file at all. */
  lemma SelectAllShowsInHeader(files: seq<FileEntry>)
    ensures AllFilesSelected(SelectAll(files, true), files)
    ensures AllFilesSelected(SelectAll(files, false), files) <==>
            forall f :: f in files ==> f.kind != "file"
  {
  }

  /** The corrected header reads "checked" exactly when the selection holds
      every name `SelectAll` would select. */
  lemma AllFilesSelectedMeansSelectAllIncluded(selected: seq<string>, files: seq<FileEntry>)
    ensures AllFilesSelected(selected, files) <==>
            forall x :: x in SelectAll(files, true) ==> x in selected
  {
    if AllFilesSelected(selected, files) {
      forall x | x in SelectAll(files, true) ensures x in selected {
        var f :| f in files && f.kind == "file" && f.name == x;
      }
    }
  }

  // ---------------------------------------------------------- handleDoubleClick

  /** `handleDoubleClick`: entering a directory moves there and clears the
      selection; a file starts a download and leaves the view unchanged. */
  function DoubleClick(v: View, f: FileEntry): (r: View)
    ensures f.kind == "directory" ==> r.currentPath == f.path && r.selected == []
    ensures f.kind != "directory" ==> r == v
  {
    if f.kind == "directory" then View(f.path, []) else v
  }

  // ---------------------------------------------------------------- getFileIcon

  /** The icons `getFileIcon` hands out, named after their pictures. */
  datatype Icon = Folder | Page | Memo | Chart | Picture | Film | Music | Package

  function LowerChar(c: char): char
  {
    if 'A' <= c <= 'Z' then (c as int + 32) as char else c
  }

  /** `toLowerCase`, on ASCII letters: every upper-case letter becomes its
      lower-case partner, every other character stays. */
  function Lower(s: string): (r: string)
    ensures |r| == |s|
    ensures forall i :: 0 <= i < |r| ==> !('A' <= r[i] <= 'Z')
    ensures forall i :: 0 <= i < |s| && 'A' <= s[i] <= 'Z' ==> r[i] as int == s[i] as int + 32
    ensures forall i :: 0 <= i < |s| && !('A' <= s[i] <= 'Z') ==> r[i] == s[i]
  {
    seq(|s|, i requires 0 <= i < |s| => LowerChar(s[i]))
  }

  /** `file.name.split('.').pop()?.toLowerCase()`. */
  function Extension(name: string): (ext: string)
    ensures ext == Lower(AfterLast(name, '.'))
  {
    var parts := Split(name, '.');
    LastSegment(name, '.');
    Lower(parts[|parts| - 1])
  }

  /** The `switch` on the extension; extensions it does not list fall to
      the default icon. */
  function IconFor(ext: string): (r: Icon)
    ensures ext !in ListedExtensions ==> r == Page
    ensures r != Folder
  {
    match ext
    case "pdf" => Page
    case "doc" => Memo
    case "docx" => Memo
    case "xls" => Chart
    case "xlsx" => Chart
    case "jpg" => Picture
    case "jpeg" => Picture
    case "png" => Picture
    case "gif" => Picture
    case "mp4" => Film
    case "avi" => Film
    case "mov" => Film
    case "mp3" => Music
    case "wav" => Music
    case "zip" => Package
    case "rar" => Package
    case "7z" => Package
    case "txt" => Page
    case _ => Page
  }

  /** The extensions the `switch` lists. */
  const ListedExtensions: set<string> :=
    {"pdf", "doc", "docx", "xls", "xlsx", "jpg", "jpeg", "png", "gif",
     "mp4", "avi", "mov", "mp3", "wav", "zip", "rar", "7z", "txt"}

  /** `getFileIcon`. */
  function FileIcon(f: FileEntry): (r: Icon)
    ensures f.kind == "directory" ==> r == Folder
    ensures r == Folder ==> f.kind == "directory"
  {
    if f.kind == "directory" then Folder else IconFor(Extension(f.name))
  }

  /** For a non-directory the icon is fixed by the lower-cased text after
      the last '.' (the whole name when there is none). */
  lemma FileIconByLastDot(f: FileEntry)
    requires f.kind != "directory"
    ensures FileIcon(f) == IconFor(Lower(AfterLast(f.name, '.')))
  {
  }

  /** Two non-directories whose names agree after the last '.', up to case,
      get the same icon. */
  lemma SameExtensionSameIcon(f: FileEntry, g: FileEntry)
    requires f.kind != "directory" && g.kind != "directory"
    requires Lower(AfterLast(f.name, '.')) == Lower(AfterLast(g.name, '.'))
    ensures FileIcon(f) == FileIcon(g)
  {
    FileIconByLastDot(f);
    FileIconByLastDot(g);
  }

  /** An extension the `switch` does not list gets the default icon. */
  lemma UnlistedExtensionGetsDefault(f: FileEntry)
    requires f.kind != "directory"
    requires Lower(AfterLast(f.name, '.')) !in ListedExtensions
    ensures FileIcon(f) == Page
  {
    FileIconByLastDot(f);
    assert IconFor(Lower(AfterLast(f.name, '.'))) == Page;
  }
}

=== FILE: registry.dfy ===
/**
  The connection registry and session guards of the management API
  (backend/server.py). The document store is an in-memory value with four
  parts: connections by id, installation keys by key text, the append-only
  activity log, and the process-wide index of live WebSocket sessions.
  Every handler is a function from the store before the request to the
  store after it together with the response, taken as one atomic step.
 */
module Registry {
  import opened Strings

  type Id = string
  /** An opaque reading of the server's clock. */
  type Time = int
  /** An opaque handle of an accepted WebSocket. */
  type Socket = nat

  datatype Option<T> = None | Some(value: T)

  const VncPort: int := 5900
  const VncPassword: string := "vnc123pass"
  const DefaultCountry: string := "Russia"
  const DefaultCity: string := "Moscow"
  const ValidStatuses: seq<string> := ["active", "inactive", "installing", "error"]

  /** A registered remote machine (`VNCConnection`). */
  datatype Connection = Connection(
    id: Id, name: string, ipAddress: Option<string>, location: string,
    country: string, city: string, status: string, lastSeen: Option<Time>,
    installationKey: string, createdAt: Time, vncPort: int, vncPassword: string)

  /** A single-use installation credential (`InstallationKey`); every key
      the handlers create is bound to a connection. */
  datatype InstallationKey = InstallationKey(
    key: string, machineName: string, createdAt: Time, used: bool,
    usedAt: Option<Time>, connectionId: Id)

  /** An activity-log record (`ActivityLog`). */
  datatype LogEntry = LogEntry(
    connectionId: Id, action: string, details: string, timestamp: Time,
    ipAddress: Option<string>)

  datatype Store = Store(
    connections: map<Id, Connection>,
    keys: map<string, InstallationKey>,
    logs: seq<LogEntry>,
    sessions: map<Id, Socket>)

  /** An HTTP error status or a WebSocket close code, with its detail text. */
  datatype Error = Error(code: int, detail: string)
  datatype Result<T> = Ok(value: T) | Err(error: Error)
  /** The store after a request and the response to it. */
  datatype Step<T> = Step(store: Store, response: Result<T>)

  const NotFound: Error := Error(404, "Connection not found")
  const NotActive: Error := Error(400, "Connection is not active")
  const InvalidStatus: Error :=
    Error(400, "Invalid status. Must be one of: ['active', 'inactive', 'installing', 'error']")
  const KeyRequired: Error := Error(400, "Installation key required")
  const KeyInvalid: Error := Error(404, "Invalid installation key")
  const KeyUsed: Error := Error(400, "Installation key already used")
  const WsNotFound: Error := Error(4004, "Connection not found")
  const WsNotActive: Error := Error(4003, "Connection not active")

  /** Python's `str()` of an optional string inside an f-string: an absent
      value prints as "None". */
  function Show(o: Option<string>): (r: string)
    ensures o.Some? ==> r == o.value
    ensures o.None? ==> r == "None"
  {
    OrDefault(o, "None")
  }

  /** `log_activity`: append one entry (no handler passes an origin address). */
  function Log(s: Store, id: Id, action: string, details: string, now: Time): (r: Store)
    ensures r.logs == s.logs + [LogEntry(id, action, details, now, None)]
    ensures r.connections == s.connections && r.keys == s.keys && r.sessions == s.sessions
  {
    s.(logs := s.logs + [LogEntry(id, action, details, now, None)])
  }

  // ------------------------------------------------------------------ invariant

  /** The keys bound to connection `id`. */
  function KeysOf(s: Store, id: Id): set<string>
  {
    set k | k in s.keys && s.keys[k].connectionId == id
  }

  /** Connections are stored under their own id, keys under their own text,
      and connections and keys are paired one to one: every connection has
      its key, and every key is the key of the connection it is bound to. */
  predicate Valid(s: Store)
  {
    && (forall id :: id in s.connections ==>
          s.connections[id].id == id
          && s.connections[id].installationKey in s.keys
          && s.keys[s.connections[id].installationKey].connectionId == id)
    && (forall k :: k in s.keys ==>
          s.keys[k].key == k
          && s.keys[k].connectionId in s.connections
          && s.connections[s.keys[k].connectionId].installationKey == k)
  }

  /** In a valid store a connection's key is the only key bound to it. */
  lemma KeysOfIsOwnKey(s: Store, id: Id)
    requires Valid(s) && id in s.connections
    ensures KeysOf(s, id) == {s.connections[id].installationKey}
  {
  }

  /** The invariant does not look at the log or the session index. */
  lemma ValidIgnoresLogAndSessions(s: Store, t: Store)
    requires Valid(s) && t.connections == s.connections && t.keys == s.keys
    ensures Valid(t)
  {
  }

  function Initial(): (s: Store)
    ensures Valid(s) && s.logs == [] && s.sessions == map[]
  {
    Store(map[], map[], [], map[])
  }

  // -------------------------------------------------------------------- creation

  /** The body of `POST /connections`; `country` and `city` default when absent. */
  datatype ConnectionRequest = ConnectionRequest(
    name: string, location: string, country: Option<string>, city: Option<string>)

  /** A supplied value, or `default` when it is absent. */
  function OrDefault(o: Option<string>, default: string): (r: string)
    ensures o.Some? ==> r == o.value
    ensures o.None? ==> r == default
  {
    match o
    case None => default
    case Some(text) => text
  }

  /** `create_connection`: a new inactive connection without address, and a
      fresh unused key bound to it, carrying the same key text. `id` and
      `key` are the fresh values `uuid4` and `generate_installation_key` give. */
  function CreateConnection(s: Store, req: ConnectionRequest, id: Id, key: string, now: Time): (r: Step<Connection>)
    requires id !in s.connections && key !in s.keys
    ensures r.response.Ok?
    ensures var c := r.response.value;
      && c.id == id && c.name == req.name && c.status == "inactive"
      && c.ipAddress == None && c.lastSeen == None && c.installationKey == key
      && c.vncPort == VncPort && c.vncPassword == VncPassword
      && c.location == req.location && c.createdAt == now
      && c.country == OrDefault(req.country, DefaultCountry)
      && c.city == OrDefault(req.city, DefaultCity)
      && r.store.connections == s.connections[id := c]
    ensures r.store.keys == s.keys[key := InstallationKey(key, req.name, now, false, None, id)]
    ensures r.store.logs == s.logs && r.store.sessions == s.sessions
    ensures Valid(s) ==> Valid(r.store)
  {
    var c := Connection(id, req.name, None, req.location,
                        OrDefault(req.country, DefaultCountry), OrDefault(req.city, DefaultCity),
                        "inactive", None, key, now, VncPort, VncPassword);
    var k := InstallationKey(key, req.name, now, false, None, id);
    Step(s.(connections := s.connections[id := c], keys := s.keys[key := k]), Ok(c))
  }

  // --------------------------------------------------------------- status update

  /** `update_connection_status`: the status is checked before the id; a
      successful update sets status and last-seen and logs exactly once. */
  function UpdateConnectionStatus(s: Store, id: Id, status: string, now: Time): (r: Step<string>)
    ensures status !in ValidStatuses ==> r == Step(s, Err(InvalidStatus))
    ensures status in ValidStatuses && id !in s.connections ==> r == Step(s, Err(NotFound))
    ensures r.response.Ok? <==> status in ValidStatuses && id in s.connections
    ensures r.response.Ok? ==>
      && r.store.connections ==
           s.connections[id := s.connections[id].(status := status, lastSeen := Some(now))]
      && r.store.logs == s.logs + [LogEntry(id, "status_update", "Status changed to " + status, now, None)]
      && r.store.keys == s.keys && r.store.sessions == s.sessions
    ensures Valid(s) ==> Valid(r.store)
  {
    if status !in ValidStatuses then Step(s, Err(InvalidStatus))
    else if id !in s.connections then Step(s, Err(NotFound))
    else
      var c := s.connections[id].(status := status, lastSeen := Some(now));
      var updated := s.(connections := s.connections[id := c]);
      Step(Log(updated, id, "status_update", "Status changed to " + status, now),
           Ok("Status updated successfully"))
  }

  // -------------------------------------------------------------------- deletion

  /** `delete_connection`: the connection goes, and with it every key bound
      to it (`delete_many`); an unknown id changes nothing. */
  function DeleteConnection(s: Store, id: Id, now: Time): (r: Step<string>)
    ensures id !in s.connections ==> r == Step(s, Err(NotFound))
    ensures id in s.connections ==>
      && r.response == Ok("Connection deleted successfully")
      && r.store.connections == s.connections - {id}
      && r.store.keys.Keys == s.keys.Keys - KeysOf(s, id)
      && (forall k :: k in r.store.keys ==> r.store.keys[k] == s.keys[k])
      && r.store.logs ==
           s.logs + [LogEntry(id, "connection_deleted", "Connection removed from system", now, None)]
      && r.store.sessions == s.sessions
    ensures Valid(s) ==> Valid(r.store)
  {
    if id !in s.connections then Step(s, Err(NotFound))
    else
      var remaining := map k | k in s.keys && s.keys[k].connectionId != id :: s.keys[k];
      var removed := s.(connections := s.connections - {id}, keys := remaining);
      Step(Log(removed, id, "connection_deleted", "Connection removed from system", now),
           Ok("Connection deleted successfully"))
  }

  /** Deleting a connection of a valid store removes its own key. */
  lemma DeleteRemovesOwnKey(s: Store, id: Id, now: Time)
    requires Valid(s) && id in s.connections
    ensures s.connections[id].installationKey !in DeleteConnection(s, id, now).store.keys
    ensures forall k :: k in DeleteConnection(s, id, now).store.keys ==>
              DeleteConnection(s, id, now).store.keys[k].connectionId != id
  {
    KeysOfIsOwnKey(s, id);
  }

  // ---------------------------------------------------------------- registration

  /** The JSON body of `POST /register-machine`; absent fields are `None`. */
  datatype Registration = Registration(
    installationKey: Option<string>, machineName: Option<string>,
    ipAddress: Option<string>, status: Option<string>)

  /** `if not installation_key`: Python treats both `None` and the empty
      string as false. */
  function KeyMissing(req: Registration): (missing: bool)
    ensures !missing <==> req.installationKey.Some? && |req.installationKey.value| > 0
  {
    req.installationKey == None || req.installationKey == Some("")
  }

  /** `register_machine`: the key must be present, known and unused; then
      the bound connection gets the address and the (unvalidated) status,
      "active" by default, and the key is marked used. */
  function RegisterMachine(s: Store, req: Registration, now: Time): (r: Step<Id>)
    ensures KeyMissing(req) ==> r == Step(s, Err(KeyRequired))
    ensures !KeyMissing(req) && req.installationKey.value !in s.keys ==> r == Step(s, Err(KeyInvalid))
    ensures !KeyMissing(req) && req.installationKey.value in s.keys && s.keys[req.installationKey.value].used ==>
              r == Step(s, Err(KeyUsed))
    ensures r.response.Ok? <==>
              !KeyMissing(req) && req.installationKey.value in s.keys && !s.keys[req.installationKey.value].used
    ensures r.response.Ok? ==>
      var key := req.installationKey.value;
      var cid := s.keys[key].connectionId;
      && r.response.value == cid
      && r.store.keys == s.keys[key := s.keys[key].(used := true, usedAt := Some(now))]
      && (cid in s.connections ==>
            r.store.connections == s.connections[cid := s.connections[cid].(
              ipAddress := req.ipAddress, status := OrDefault(req.status, "active"),
              lastSeen := Some(now))])
      && (cid !in s.connections ==> r.store.connections == s.connections)
      && |r.store.logs| == |s.logs| + 1 && r.store.logs[..|s.logs|] == s.logs
      && r.store.logs[|s.logs|] == LogEntry(cid, "machine_registered",
           "Machine " + Show(req.machineName) + " registered with IP " + Show(req.ipAddress), now, None)
      && r.store.sessions == s.sessions
    ensures Valid(s) ==> Valid(r.store)
  {
    if KeyMissing(req) then Step(s, Err(KeyRequired))
    else
      var key := req.installationKey.value;
      if key !in s.keys then Step(s, Err(KeyInvalid))
      else if s.keys[key].used then Step(s, Err(KeyUsed))
      else
        var cid := s.keys[key].connectionId;
        var connections :=
          if cid in s.connections
          then s.connections[cid := s.connections[cid].(
                 ipAddress := req.ipAddress, status := OrDefault(req.status, "active"),
                 lastSeen := Some(now))]
          else s.connections;
        var keys := s.keys[key := s.keys[key].(used := true, usedAt := Some(now))];
        var details := "Machine " + Show(req.machineName) + " registered with IP " + Show(req.ipAddress);
        Step(Log(s.(connections := connections, keys := keys), cid, "machine_registered", details, now), Ok(cid))
  }

  /** A key is consumed at most once: registering again with it fails with
      "already used" and changes nothing, the address included. */
  lemma KeySingleUse(s: Store, first: Registration, again: Registration, t1: Time, t2: Time)
    requires RegisterMachine(s, first, t1).response.Ok?
    requires again.installationKey == first.installationKey
    ensures var after := RegisterMachine(s, first, t1).store;
      RegisterMachine(after, again, t2) == Step(after, Err(KeyUsed))
  {
  }

  /** A freshly created connection can be registered with its key, which
      sets the supplied address on exactly that connection. */
  lemma CreatedKeyRegisters(s: Store, req: ConnectionRequest, id: Id, key: string, t1: Time,
                            reg: Registration, t2: Time)
    requires id !in s.connections && key !in s.keys
    requires reg.installationKey == Some(key) && key != ""
    ensures var created := CreateConnection(s, req, id, key, t1).store;
      var r := RegisterMachine(created, reg, t2);
      && r.response == Ok(id)
      && r.store.connections[id].ipAddress == reg.ipAddress
      && r.store.keys[key].used
  {
  }

  /** Once a connection is deleted, its key is no longer accepted. */
  lemma DeletedKeyRejected(s: Store, id: Id, t1: Time, reg: Registration, t2: Time)
    requires Valid(s) && id in s.connections
    requires reg.installationKey == Some(s.connections[id].installationKey)
    requires s.connections[id].installationKey != ""
    ensures var deleted := DeleteConnection(s, id, t1).store;
      RegisterMachine(deleted, reg, t2) == Step(deleted, Err(KeyInvalid))
  {
    DeleteRemovesOwnKey(s, id, t1);
  }

  // ---------------------------------------------------- "found / active" guards

  /** The guard shared by `start_vnc_session`, the file endpoints and the
      screenshot: 404 for an unknown id, 400 for a connection not active. */
  function ActiveConnection(s: Store, id: Id): (r: Result<Connection>)
    ensures id !in s.connections ==> r == Err(NotFound)
    ensures id in s.connections && s.connections[id].status != "active" ==> r == Err(NotActive)
    ensures r.Ok? <==> id in s.connections && s.connections[id].status == "active"
    ensures r.Ok? ==> r.value == s.connections[id]
  {
    if id !in s.connections then Err(NotFound)
    else if s.connections[id].status != "active" then Err(NotActive)
    else Ok(s.connections[id])
  }

  /** A guarded handler fails exactly when the guard does, with the guard's
      error and no change; otherwise it appends one `action` entry for `id`,
      stamped `now`, and changes nothing else. */
  predicate GuardedStep<T(==)>(s: Store, id: Id, action: string, now: Time, r: Step<T>)
  {
    match ActiveConnection(s, id)
    case Err(e) => r == Step(s, Err(e))
    case Ok(_) =>
      && r.response.Ok?
      && |r.store.logs| == |s.logs| + 1 && r.store.logs[..|s.logs|] == s.logs
      && r.store.logs[|s.logs|].connectionId == id
      && r.store.logs[|s.logs|].action == action
      && r.store.logs[|s.logs|].timestamp == now
      && r.store.logs[|s.logs|].ipAddress == None
      && r.store.(logs := s.logs) == s
  }

  /** What `start_vnc_session` hands to the client. */
  datatype SessionInfo = SessionInfo(
    connectionId: Id, ipAddress: Option<string>, port: int, password: string, websocketUrl: string)

  /** `start_vnc_session`. */
  function StartVncSession(s: Store, id: Id, now: Time): (r: Step<SessionInfo>)
    ensures GuardedStep(s, id, "vnc_connect", now, r)
    ensures r.response.Ok? ==>
      && r.response.value == SessionInfo(id, s.connections[id].ipAddress, s.connections[id].vncPort,
                                         s.connections[id].vncPassword,
                                         "ws://localhost:6080/websockify?token=" + id)
      && r.store.logs[|s.logs|].details == "VNC session started to " + Show(s.connections[id].ipAddress)
  {
    match ActiveConnection(s, id)
    case Err(e) => Step(s, Err(e))
    case Ok(c) =>
      Step(Log(s, id, "vnc_connect", "VNC session started to " + Show(c.ipAddress), now),
           Ok(SessionInfo(id, c.ipAddress, c.vncPort, c.vncPassword,
                          "ws://localhost:6080/websockify?token=" + id)))
  }

  /** `list_files`: answers with the path it was asked about (the listing
      itself is a fixed demonstration list). */
  function ListFiles(s: Store, id: Id, path: string, now: Time): (r: Step<string>)
    ensures GuardedStep(s, id, "file_list", now, r)
    ensures r.response.Ok? ==> r.response.value == path
    ensures r.response.Ok? ==> r.store.logs[|s.logs|].details == "Listed files in " + path
  {
    match ActiveConnection(s, id)
    case Err(e) => Step(s, Err(e))
    case Ok(_) => Step(Log(s, id, "file_list", "Listed files in " + path, now), Ok(path))
  }

  /** The remote path `upload_file` reports: the requested directory with
      trailing '/' stripped, a '/', and the file name. */
  function RemotePath(remotePath: string, filename: string): (r: string)
    ensures |r| > |filename| && r[|r| - |filename| - 1..] == "/" + filename
    ensures r[..|r| - |filename| - 1] <= remotePath
    ensures forall j :: |r| - |filename| - 1 <= j < |remotePath| ==> remotePath[j] == '/'
    ensures |r| > |filename| + 1 ==> r[|r| - |filename| - 2] != '/'
  {
    var dir := RStrip(remotePath, '/');
    assert (dir + "/" + filename)[..|dir|] == dir;
    dir + "/" + filename
  }

  /** What `upload_file` reports (the MD5 checksum is not modelled). */
  datatype UploadReceipt = UploadReceipt(filename: string, size: nat, remotePath: string)

  /** `upload_file`. */
  function UploadFile(s: Store, id: Id, filename: string, content: seq<bv8>, remotePath: string, now: Time)
    : (r: Step<UploadReceipt>)
    ensures GuardedStep(s, id, "file_upload", now, r)
    ensures r.response.Ok? ==>
      r.response.value == UploadReceipt(filename, |content|, RemotePath(remotePath, filename))
    ensures r.response.Ok? ==>
      r.store.logs[|s.logs|].details == "Uploaded " + filename + " (" + Decimal(|content|) + " bytes)"
  {
    match ActiveConnection(s, id)
    case Err(e) => Step(s, Err(e))
    case Ok(_) =>
      var details := "Uploaded " + filename + " (" + Decimal(|content|) + " bytes)";
      Step(Log(s, id, "file_upload", details, now),
           Ok(UploadReceipt(filename, |content|, RemotePath(remotePath, filename))))
  }

  /** `download_file`: answers with the base name of the requested path.
      `contentSize` is the byte length of the generated demonstration
      content, which embeds the clock's text. */
  function DownloadFile(s: Store, id: Id, filePath: string, contentSize: nat, now: Time): (r: Step<string>)
    ensures GuardedStep(s, id, "file_download", now, r)
    ensures r.response.Ok? ==> r.response.value == AfterLast(filePath, '/') && '/' !in r.response.value
    ensures r.response.Ok? ==>
      r.store.logs[|s.logs|].details ==
        "Downloaded " + AfterLast(filePath, '/') + " (" + Decimal(contentSize) + " bytes)"
  {
    match ActiveConnection(s, id)
    case Err(e) => Step(s, Err(e))
    case Ok(_) =>
      var filename := AfterLast(filePath, '/');
      Step(Log(s, id, "file_download", "Downloaded " + filename + " (" + Decimal(contentSize) + " bytes)", now),
           Ok(filename))
  }

  /** What the screenshot picture shows. */
  datatype Screen = Screen(name: string, ipAddress: Option<string>)

  /** `get_vnc_screenshot`. */
  function VncScreenshot(s: Store, id: Id, now: Time): (r: Step<Screen>)
    ensures GuardedStep(s, id, "vnc_screenshot", now, r)
    ensures r.response.Ok? ==>
      && r.response.value == Screen(s.connections[id].name, s.connections[id].ipAddress)
      && r.store.logs[|s.logs|].details == "Screenshot captured"
  {
    match ActiveConnection(s, id)
    case Err(e) => Step(s, Err(e))
    case Ok(c) => Step(Log(s, id, "vnc_screenshot", "Screenshot captured", now), Ok(Screen(c.name, c.ipAddress)))
  }

  // ------------------------------------------------------------ WebSocket session

  /** The admission part of `vnc_websocket`: close with 4004 or 4003 without
      touching the session index, or index the socket under `id` and log. */
  function OpenSession(s: Store, id: Id, socket: Socket, now: Time): (r: Step<()>)
    ensures id !in s.connections ==> r == Step(s, Err(WsNotFound))
    ensures id in s.connections && s.connections[id].status != "active" ==> r == Step(s, Err(WsNotActive))
    ensures r.response.Ok? <==> id in s.connections && s.connections[id].status == "active"
    ensures r.response.Ok? ==>
      && r.store.sessions == s.sessions[id := socket]
      && r.store.logs ==
           s.logs + [LogEntry(id, "vnc_websocket_connect", "WebSocket VNC session started", now, None)]
      && r.store.connections == s.connections && r.store.keys == s.keys
  {
    if id !in s.connections then Step(s, Err(WsNotFound))
    else if s.connections[id].status != "active" then Step(s, Err(WsNotActive))
    else
      var indexed := s.(sessions := s.sessions[id := socket]);
      Step(Log(indexed, id, "vnc_websocket_connect", "WebSocket VNC session started", now), Ok(()))
  }

  /** The `finally` of `vnc_websocket`: drop `id` from the index, log. */
  function CloseSession(s: Store, id: Id, now: Time): (r: Store)
    ensures id !in r.sessions
    ensures r.sessions == s.sessions - {id}
    ensures r.logs == s.logs + [LogEntry(id, "vnc_websocket_disconnect", "WebSocket VNC session ended", now, None)]
    ensures r.connections == s.connections && r.keys == s.keys
  {
    Log(s.(sessions := s.sessions - {id}), id, "vnc_websocket_disconnect", "WebSocket VNC session ended", now)
  }

  /** The reply to one received text message. */
  function Reply(message: string): (r: string)
    ensures |r| == 14 + |message| && r[14..] == message
    ensures r[..14] == "VNC_RESPONSE: "
  {
    "VNC_RESPONSE: " + message
  }

  /** A whole session: the index holds `id` while messages are answered,
      and no longer holds it once the session has ended. */
  lemma SessionLifecycle(s: Store, id: Id, socket: Socket, t1: Time, t2: Time)
    requires OpenSession(s, id, socket, t1).response.Ok?
    ensures var live := OpenSession(s, id, socket, t1).store;
      && id in live.sessions && live.sessions[id] == socket
      && id !in CloseSession(live, id, t2).sessions
      && CloseSession(live, id, t2).sessions == s.sessions - {id}
  {
  }

  /** Two overlapping sessions on one id: the second overwrites the first's
      entry, and the end of either session leaves the id unindexed while
      the other one is still running. */
  lemma OverlappingSessions(s: Store, id: Id, first: Socket, second: Socket, t1: Time, t2: Time, t3: Time)
    requires OpenSession(s, id, first, t1).response.Ok?
    ensures var one := OpenSession(s, id, first, t1).store;
      var two := OpenSession(one, id, second, t2);
      && two.response.Ok?
      && two.store.sessions[id] == second
      && id !in CloseSession(two.store, id, t3).sessions
  {
  }
}

=== FILE: server.dfy ===
/**
  The request handlers of backend/server.py as methods of one server object
  that owns the in-memory store: each method checks, then mutates the
  fields step by step, and its postcondition ties the new store to the
  `Registry` transition for the same request. `vnc_websocket` keeps its
  receive loop.
 */
module Server {
  import opened Registry

  class VncServer {
    var connections: map<Id, Connection>
    var keys: map<string, InstallationKey>
    var logs: seq<LogEntry>
    /** `websocket_connections`: live sessions by connection id. */
    var sessions: map<Id, Socket>

    /** The store these fields make up. */
    function Db(): Store
      reads this
    {
      Store(connections, keys, logs, sessions)
    }

    predicate Valid()
      reads this
    {
      Registry.Valid(Db())
    }

    constructor ()
      ensures Valid() && Db() == Initial()
    {
      connections, keys, logs, sessions := map[], map[], [], map[];
    }

    /** `log_activity`. */
    method LogActivity(id: Id, action: string, details: string, now: Time)
      modifies this
      ensures Db() == Log(old(Db()), id, action, details, now)
    {
      logs := logs + [LogEntry(id, action, details, now, None)];
    }

    /** `create_connection`. */
    method CreateConnection(req: ConnectionRequest, id: Id, key: string, now: Time) returns (c: Connection)
      requires Valid() && id !in connections && key !in keys
      modifies this
      ensures Valid()
      ensures var step := Registry.CreateConnection(old(Db()), req, id, key, now);
        Db() == step.store && step.response == Ok(c)
    {
      ghost var step := Registry.CreateConnection(Db(), req, id, key, now);
      c := Connection(id, req.name, None, req.location,
                      OrDefault(req.country, DefaultCountry), OrDefault(req.city, DefaultCity),
                      "inactive", None, key, now, VncPort, VncPassword);
      connections := connections[id := c];
      keys := keys[key := InstallationKey(key, req.name, now, false, None, id)];
    }

    /** `update_connection_status`. */
    method UpdateConnectionStatus(id: Id, status: string, now: Time) returns (response: Result<string>)
      requires Valid()
      modifies this
      ensures Valid()
      ensures var step := Registry.UpdateConnectionStatus(old(Db()), id, status, now);
        Db() == step.store && response == step.response
    {
      ghost var step := Registry.UpdateConnectionStatus(Db(), id, status, now);
      if status !in ValidStatuses {
        return Err(InvalidStatus);
      }
      if id !in connections {
        return Err(NotFound);
      }
      connections := connections[id := connections[id].(status := status, lastSeen := Some(now))];
      LogActivity(id, "status_update", "Status changed to " + status, now);
      response := Ok("Status updated successfully");
    }

    /** `delete_connection`. */
    method DeleteConnection(id: Id, now: Time) returns (response: Result<string>)
      requires Valid()
      modifies this
      ensures Valid()
      ensures var step := Registry.DeleteConnection(old(Db()), id, now);
        Db() == step.store && response == step.response
    {
      ghost var step := Registry.DeleteConnection(Db(), id, now);
      if id !in connections {
        return Err(NotFound);
      }
      connections := connections - {id};
      keys := map k | k in keys && keys[k].connectionId != id :: keys[k];
      LogActivity(id, "connection_deleted", "Connection removed from system", now);
      response := Ok("Connection deleted successfully");
    }

    /** `register_machine`. */
    method RegisterMachine(req: Registration, now: Time) returns (response: Result<Id>)
      requires Valid()
      modifies this
      ensures Valid()
      ensures var step := Registry.RegisterMachine(old(Db()), req, now);
        Db() == step.store && response == step.response
    {
      ghost var step := Registry.RegisterMachine(Db(), req, now);
      if KeyMissing(req) {
        return Err(KeyRequired);
      }
      var key := req.installationKey.value;
      if key !in keys {
        return Err(KeyInvalid);
      }
      if keys[key].used {
        return Err(KeyUsed);
      }
      var cid := keys[key].connectionId;
      if cid in connections {
        connections := connections[cid := connections[cid].(
          ipAddress := req.ipAddress, status := OrDefault(req.status, "active"), lastSeen := Some(now))];
      }
      keys := keys[key := keys[key].(used := true, usedAt := Some(now))];
      LogActivity(cid, "machine_registered",
                  "Machine " + Show(req.machineName) + " registered with IP " + Show(req.ipAddress), now);
      response := Ok(cid);
    }

    /** The "found / active" lookup the guarded endpoints start with. */
    method FindActive(id: Id) returns (r: Result<Connection>)
      ensures r == ActiveConnection(Db(), id)
    {
      if id !in connections {
        return Err(NotFound);
      }
      var c := connections[id];
      if c.status != "active" {
        return Err(NotActive);
      }
      r := Ok(c);
    }

    /** `start_vnc_session`. */
    method StartVncSession(id: Id, now: Time) returns (response: Result<SessionInfo>)
      requires Valid()
      modifies this
      ensures Valid()
      ensures var step := Registry.StartVncSession(old(Db()), id, now);
        Db() == step.store && response == step.response
    {
      ghost var step := Registry.StartVncSession(Db(), id, now);
      var found := FindActive(id);
      if found.Err? {
        return Err(found.error);
      }
      var c := found.value;
      LogActivity(id, "vnc_connect", "VNC session started to " + Show(c.ipAddress), now);
      response := Ok(SessionInfo(id, c.ipAddress, c.vncPort, c.vncPassword,
                                 "ws://localhost:6080/websockify?token=" + id));
    }

    /** `list_files`. */
    method ListFiles(id: Id, path: string, now: Time) returns (response: Result<string>)
      requires Valid()
      modifies this
      ensures Valid()
      ensures var step := Registry.ListFiles(old(Db()), id, path, now);
        Db() == step.store && response == step.response
    {
      ghost var step := Registry.ListFiles(Db(), id, path, now);
      var found := FindActive(id);
      if found.Err? {
        return Err(found.error);
      }
      LogActivity(id, "file_list", "Listed files in " + path, now);
      response := Ok(path);
    }

    /** `upload_file`. */
    method UploadFile(id: Id, filename: string, content: seq<bv8>, remotePath: string, now: Time)
      returns (response: Result<UploadReceipt>)
      requires Valid()
      modifies this
      ensures Valid()
      ensures var step := Registry.UploadFile(old(Db()), id, filename, content, remotePath, now);
        Db() == step.store && response == step.response
    {
      ghost var step := Registry.UploadFile(Db(), id, filename, content, remotePath, now);
      var found := FindActive(id);
      if found.Err? {
        return Err(found.error);
      }
      LogActivity(id, "file_upload", "Uploaded " + filename + " (" + Strings.Decimal(|content|) + " bytes)", now);
      response := Ok(UploadReceipt(filename, |content|, RemotePath(remotePath, filename)));
    }

    /** `download_file`. */
    method DownloadFile(id: Id, filePath: string, contentSize: nat, now: Time) returns (response: Result<string>)
      requires Valid()
      modifies this
      ensures Valid()
      ensures var step := Registry.DownloadFile(old(Db()), id, filePath, contentSize, now);
        Db() == step.store && response == step.response
    {
      ghost var step := Registry.DownloadFile(Db(), id, filePath, contentSize, now);
      var found := FindActive(id);
      if found.Err? {
        return Err(found.error);
      }
      var filename := Strings.AfterLast(filePath, '/');
      var details := "Downloaded " + filename + " (" + Strings.Decimal(contentSize) + " bytes)";
      LogActivity(id, "file_download", details, now);
      response := Ok(filename);
      ValidIgnoresLogAndSessions(old(Db()), Db());
    }

    /** `get_vnc_screenshot`. */
    method VncScreenshot(id: Id, now: Time) returns (response: Result<Screen>)
      requires Valid()
      modifies this
      ensures Valid()
      ensures var step := Registry.VncScreenshot(old(Db()), id, now);
        Db() == step.store && response == step.response
    {
      ghost var step := Registry.VncScreenshot(Db(), id, now);
      var found := FindActive(id);
      if found.Err? {
        return Err(found.error);
      }
      var c := found.value;
      LogActivity(id, "vnc_screenshot", "Screenshot captured", now);
      response := Ok(Screen(c.name, c.ipAddress));
    }

    /** `vnc_websocket`: `incoming` is what the client sends before it
        disconnects. A refused session closes with a code and changes
        nothing; an admitted one answers every message in order, holding its
        index entry meanwhile, and on leaving drops the entry and logs. */
    method VncWebsocket(id: Id, socket: Socket, incoming: seq<string>, startedAt: Time, endedAt: Time)
      returns (refusal: Option<Error>, replies: seq<string>)
      requires Valid()
      modifies this
      ensures Valid()
      ensures var opening := OpenSession(old(Db()), id, socket, startedAt);
        match opening.response
        case Err(e) => refusal == Some(e) && replies == [] && Db() == old(Db())
        case Ok(_) =>
          && refusal == None
          && Db() == CloseSession(opening.store, id, endedAt)
          && |replies| == |incoming|
          && forall j :: 0 <= j < |incoming| ==> replies[j] == Reply(incoming[j])
    {
      ghost var opening := OpenSession(Db(), id, socket, startedAt);
      replies := [];
      if id !in connections {
        return Some(WsNotFound), [];
      }
      if connections[id].status != "active" {
        return Some(WsNotActive), [];
      }
      sessions := sessions[id := socket];
      LogActivity(id, "vnc_websocket_connect", "WebSocket VNC session started", startedAt);
      ghost var live := Db();
      var i := 0;
      while i < |incoming|
        invariant 0 <= i <= |incoming|
        invariant Db() == live && id in sessions
        invariant |replies| == i
        invariant forall j :: 0 <= j < i ==> replies[j] == Reply(incoming[j])
      {
        replies := replies + [Reply(incoming[i])];
        i := i + 1;
      }
      sessions := sessions - {id};
      LogActivity(id, "vnc_websocket_disconnect", "WebSocket VNC session ended", endedAt);
      refusal := None;
    }
  }
}

=== FILE: strings.dfy ===
/**
  String helpers with the semantics of the host languages: JavaScript's
  `String.prototype.split` and `Array.prototype.join` for a one-character
  separator, `lastIndexOf` / Python's `rfind`, and Python's `str.rstrip(c)`.
  Split and Join recurse on the END of their argument, which is where both
  of their users (dropping or taking the last segment) look.
 */
module Strings {

  /** Number of occurrences of `c` in `s`. */
  function Occurrences(s: string, c: char): (n: nat)
    ensures n == 0 <==> c !in s
  {
    if s == [] then 0
    else
      assert s == s[..|s| - 1] + [s[|s| - 1]];
      Occurrences(s[..|s| - 1], c) + (if s[|s| - 1] == c then 1 else 0)
  }

  /** Occurrences add up over a concatenation. */
  lemma {:induction false} OccurrencesAppend(a: string, b: string, c: char)
    ensures Occurrences(a + b, c) == Occurrences(a, c) + Occurrences(b, c)
    decreases |b|
  {
    if b == [] {
      assert a + b == a;
    } else {
      var b' := b[..|b| - 1];
      assert (a + b)[..|a + b| - 1] == a + b';
      OccurrencesAppend(a, b', c);
    }
  }

  /** JavaScript `s.split(sep)`: empty segments are kept, so the result has
      one more segment than `s` has separators, and `"".split(sep)` is `[""]`. */
  function Split(s: string, sep: char): (parts: seq<string>)
    ensures |parts| == Occurrences(s, sep) + 1
    ensures forall i :: 0 <= i < |parts| ==> sep !in parts[i]
    decreases |s|
  {
    if s == [] then [[]]
    else
      var init := Split(s[..|s| - 1], sep);
      var c := s[|s| - 1];
      if c == sep then init + [[]]
      else init[..|init| - 1] + [init[|init| - 1] + [c]]
  }

  /** JavaScript `parts.join(sep)`; `[].join(sep)` is the empty string.
      Separator-free segments are glued by exactly one separator each. */
  function Join(parts: seq<string>, sep: char): (r: string)
    ensures |parts| >= 1 && (forall i :: 0 <= i < |parts| ==> sep !in parts[i]) ==>
            Occurrences(r, sep) == |parts| - 1
    ensures |parts| >= 1 ==> parts[0] <= r
  {
    if |parts| == 0 then []
    else if |parts| == 1 then parts[0]
    else
      var init := Join(parts[..|parts| - 1], sep);
      var last := parts[|parts| - 1];
      OccurrencesAppend(init, [sep], sep);
      OccurrencesAppend(init + [sep], last, sep);
      assert Occurrences([sep], sep) == 1;
      init + [sep] + last
  }

  /** Index of the last `sep` in `s`, or -1 when there is none
      (JavaScript `lastIndexOf`, Python `rfind`). */
  function LastIndex(s: string, sep: char): (i: int)
    ensures -1 <= i < |s|
    ensures 0 <= i ==> s[i] == sep
    ensures forall j :: i < j < |s| ==> s[j] != sep
    ensures i == -1 <==> sep !in s
  {
    if s == [] then -1
    else if s[|s| - 1] == sep then |s| - 1
    else LastIndex(s[..|s| - 1], sep)
  }

  /** The text before the last `sep`, empty when `s` holds none. */
  function BeforeLast(s: string, sep: char): (r: string)
    ensures r <= s
    ensures s != [] ==> |r| < |s|
  {
    var i := LastIndex(s, sep);
    if i < 0 then [] else s[..i]
  }

  /** The text after the last `sep`, the whole of `s` when it holds none
      (Python's `posixpath.basename` for `sep == '/'`). */
  function AfterLast(s: string, sep: char): (r: string)
    ensures sep !in r
    ensures s == (if sep in s then BeforeLast(s, sep) + [sep] else []) + r
  {
    var i := LastIndex(s, sep);
    assert s == s[..i + 1] + s[i + 1..];
    s[i + 1..]
  }

  /** Python `s.rstrip(c)`: `s` with every trailing `c` removed. */
  function RStrip(s: string, c: char): (r: string)
    ensures r <= s
    ensures r == [] || r[|r| - 1] != c
    ensures forall j :: |r| <= j < |s| ==> s[j] == c
  {
    if s == [] || s[|s| - 1] != c then s
    else RStrip(s[..|s| - 1], c)
  }

  function DigitChar(d: nat): (c: char)
    requires d < 10
    ensures '0' <= c <= '9'
  {
    ('0' as int + d) as char
  }

  /** The number a text of decimal digits denotes. */
  function DigitsValue(r: string): nat
    requires forall i :: 0 <= i < |r| ==> '0' <= r[i] <= '9'
  {
    if r == [] then 0 else DigitsValue(r[..|r| - 1]) * 10 + (r[|r| - 1] as int - '0' as int)
  }

  /** Python `str(n)` of a natural number: decimal digits denoting `n`,
      with no leading zero (so 0 prints as "0" alone). */
  function Decimal(n: nat): (r: string)
    ensures |r| >= 1
    ensures forall i :: 0 <= i < |r| ==> '0' <= r[i] <= '9'
    ensures DigitsValue(r) == n
    ensures r[0] == '0' ==> r == "0"
  {
    if n < 10 then [DigitChar(n)]
    else
      var p := Decimal(n / 10);
      var r := p + [DigitChar(n % 10)];
      assert r[..|r| - 1] == p;
      r
  }

  /** Appending one character to the last segment extends the joined text by it. */
  lemma JoinExtendLast(parts: seq<string>, sep: char, c: char)
    requires |parts| >= 1
    ensures Join(parts[..|parts| - 1] + [parts[|parts| - 1] + [c]], sep) == Join(parts, sep) + [c]
  {
    var n := |parts|;
    var q := parts[..n - 1] + [parts[n - 1] + [c]];
    if n == 1 {
      assert q == [parts[0] + [c]];
    } else {
      assert q[..n - 1] == parts[..n - 1];
      calc {
        Join(q, sep);
        Join(parts[..n - 1], sep) + [sep] + (parts[n - 1] + [c]);
        Join(parts, sep) + [c];
      }
    }
  }

  /** Joining one more segment puts a separator before it. */
  lemma JoinAppend(parts: seq<string>, last: string, sep: char)
    requires |parts| >= 1
    ensures Join(parts + [last], sep) == Join(parts, sep) + [sep] + last
  {
    assert (parts + [last])[..|parts|] == parts;
  }

  /** Joining what `split` produced gives back the original text. */
  lemma {:induction false} JoinSplit(s: string, sep: char)
    ensures Join(Split(s, sep), sep) == s
    decreases |s|
  {
    if s != [] {
      var n := |s|;
      var s' := s[..n - 1];
      var c := s[n - 1];
      var init := Split(s', sep);
      JoinSplit(s', sep);
      assert s == s' + [c];
      if c == sep {
        assert Split(s, sep) == init + [[]];
        JoinAppend(init, [], sep);
      } else {
        assert Split(s, sep) == init[..|init| - 1] + [init[|init| - 1] + [c]];
        JoinExtendLast(init, sep, c);
      }
    }
  }

  /** Splitting after a separator adds the text behind it as a new last segment. */
  lemma {:induction false} SplitAfterSeparator(x: string, sep: char, tail: string)
    requires sep !in tail
    ensures Split(x + [sep] + tail, sep) == Split(x, sep) + [tail]
    decreases |tail|
  {
    var s := x + [sep] + tail;
    if tail == [] {
      assert s[..|s| - 1] == x;
    } else {
      var t' := tail[..|tail| - 1];
      assert s[..|s| - 1] == x + [sep] + t';
      SplitAfterSeparator(x, sep, t');
      assert tail == t' + [tail[|tail| - 1]];
    }
  }

  /** Splitting what `join` produced gives back the segments, provided there
      is at least one and none of them holds the separator. */
  lemma {:induction false} SplitJoin(parts: seq<string>, sep: char)
    requires |parts| >= 1
    requires forall i :: 0 <= i < |parts| ==> sep !in parts[i]
    ensures Split(Join(parts, sep), sep) == parts
    decreases |parts|
  {
    var n := |parts|;
    if n == 1 {
      SplitSegment(parts[0], sep);
    } else {
      var init := parts[..n - 1];
      var last := parts[n - 1];
      assert parts == init + [last];
      JoinAppend(init, last, sep);
      SplitJoin(init, sep);
      SplitAfterSeparator(Join(init, sep), sep, last);
    }
  }

  /** A text without the separator splits into itself alone. */
  lemma {:induction false} SplitSegment(s: string, sep: char)
    requires sep !in s
    ensures Split(s, sep) == [s]
    decreases |s|
  {
    if s != [] {
      SplitSegment(s[..|s| - 1], sep);
      assert s == s[..|s| - 1] + [s[|s| - 1]];
    }
  }

  /** Joining every segment but the last yields the text before the last separator. */
  lemma {:induction false} DropLastSegment(s: string, sep: char)
    ensures var parts := Split(s, sep);
      Join(parts[..|parts| - 1], sep) == BeforeLast(s, sep)
    decreases |s|
  {
    if s != [] {
      var s' := s[..|s| - 1];
      var init := Split(s', sep);
      var parts := Split(s, sep);
      if s[|s| - 1] == sep {
        assert parts[..|parts| - 1] == init;
        JoinSplit(s', sep);
      } else {
        assert parts[..|parts| - 1] == init[..|init| - 1];
        DropLastSegment(s', sep);
        assert LastIndex(s, sep) == LastIndex(s', sep);
        if 0 <= LastIndex(s', sep) {
          assert s[..LastIndex(s, sep)] == s'[..LastIndex(s', sep)];
        }
      }
    }
  }

  /** A non-separator appended to the text extends the text after the last separator. */
  lemma AfterLastExtend(s: string, c: char, sep: char)
    requires c != sep
    ensures AfterLast(s + [c], sep) == AfterLast(s, sep) + [c]
  {
    var t := s + [c];
    var i := LastIndex(s, sep);
    assert t[..|t| - 1] == s;
    assert LastIndex(t, sep) == i;
    assert t[i + 1..] == s[i + 1..] + [c];
  }

  /** The last segment of `split` is the text after the last separator. */
  lemma {:induction false} LastSegment(s: string, sep: char)
    ensures var parts := Split(s, sep);
      parts[|parts| - 1] == AfterLast(s, sep)
    decreases |s|
  {
    if s != [] {
      var n := |s|;
      var s' := s[..n - 1];
      var c := s[n - 1];
      assert s == s' + [c];
      if c == sep {
        assert LastIndex(s, sep) == n - 1;
      } else {
        LastSegment(s', sep);
        AfterLastExtend(s', c, sep);
      }
    }
  }
}
